=== FILE: README.md ===
# Empire CEO — verified model of the game logic

Empire CEO is a browser game. The player creates a CEO profile, sets up a
startup, then watches a day-by-day business simulation on a dashboard. Most
of the code renders pages. This project models the integer logic inside the
event handlers of the three game screens:

- **CreateCEO** (`ceo.dfy`): the profile form's required-field check. It
  also derives the starting capital from the industry table. The table holds
  rupee labels in lakh, such as "₹10L". These are turned into numbers with
  `replace` and `parseInt`, which are modelled in `text.dfy`. A finance
  wizard gets a 20% bonus on top.
- **StartupSetup** (`startup.dfy`): the four budget sliders. A slider move
  is rejected when the percentages would add up to more than 100. The
  "start business" gate needs four filled fields and exactly 100%. It then
  builds the saved game with its first day (`game.dfy`).
- **Dashboard** (`dashboard.dfy`): one simulated day. This covers revenue
  scaled by customer satisfaction, a fixed per-employee expense, the cash
  update, an optional random event from a four-entry table and inventory
  depletion. The controls are modelled too: the 1→2→4→1 speed cycle, the
  timer interval, play/pause, and the manual "next day" that is ignored
  while playing.

`Math.random()` becomes explicit `Draws`. These are a base revenue in
[5000, 14999], whether an event fires, and an event index in 0..3.
`DrawsFromRandom` shows how the three `Math.random()` values produce them.
Timestamps (`new Date()`) are parameters.

When every `Math.random()` returns 0, an event fires. The check `0 < 0.1` at
src/pages/Dashboard.tsx:98 holds, and `floor(0 * 4) = 0` at line 122 picks
the first event, the customer complaint (`Dashboard.AllZeroDraws`).

## Model

| member | source | states |
|---|---|---|
| `Text.RemoveFirst` | src/pages/CreateCEO.tsx:80 | `replace` with a one-character pattern leaves a string without that character alone, and otherwise removes exactly one character |
| `Text.RemoveFirstSplit` | src/pages/CreateCEO.tsx:80 | only the first occurrence is removed: `p + [c] + q` becomes `p + q` when `c` is not in `p` |
| `Text.ParseInt` | src/pages/CreateCEO.tsx:80 | `parseInt` gives NaN (`None`) exactly when the string does not start with a digit |
| `Text.ParseShow` | src/pages/CreateCEO.tsx:80 | `parseInt` reads back any decimal number followed by non-digit text |
| `CreateCEO.Find` | src/pages/CreateCEO.tsx:79 | `find` returns the first row with the given value, and nothing exactly when no row has it |
| `CreateCEO.LakhLabel` | src/pages/CreateCEO.tsx:80 | stripping "₹" and "L" from "₹<n>L" and parsing gives n |
| `CreateCEO.ParseLakh` | src/pages/CreateCEO.tsx:80 | both `replace` calls leave a label without "₹" or "L" alone, so it is parsed as it stands |
| `CreateCEO.IndustryCapital` | src/pages/CreateCEO.tsx:51-57 | the five capital labels parse to 10, 7, 5, 8 and 12 lakh |
| `CreateCEO.BaseCapital` | src/pages/CreateCEO.tsx:79-80 | the base capital is a whole number of lakh and at least 500000; an industry missing from the table gets 500000 |
| `CreateCEO.BaseCapitalTable` | src/pages/CreateCEO.tsx:51-57 | technology, fashion, food, consulting and manufacturing start from 1000000, 700000, 500000, 800000 and 1200000 |
| `CreateCEO.UnknownIndustry` | src/pages/CreateCEO.tsx:79-80 | any other industry string falls back to 500000 |
| `CreateCEO.FinalCapital` | src/pages/CreateCEO.tsx:82-85 | a finance wizard gets floor(base × 1.2); anyone else gets exactly base; never less than base |
| `CreateCEO.HandleCreateCEO` | src/pages/CreateCEO.tsx:68-92 | rejected exactly when name, personality or industry is empty; otherwise the form fields are kept and the capital is at least the base capital, and exactly the base capital for any personality but finance wizard |
| `CreateCEO.ExperienceIrrelevant` | src/pages/CreateCEO.tsx:78-85 | changing the experience level does not change the starting capital |
| `CreateCEO.FinanceWizardBonus` | src/pages/CreateCEO.tsx:82-85 | a finance wizard gets base × 6 / 5; in technology that is 1200000 |
| `Game.Initial` | src/pages/StartupSetup.tsx:116-125 | the first day is within every bound, and its opening balance is the starting capital |
| `StartupSetup.With` | src/pages/StartupSetup.tsx:79-85 | setting one category changes that category only |
| `StartupSetup.TotalBudgetUsed` | src/pages/StartupSetup.tsx:89-91 | the fold over `Object.values` equals research + hr + marketing + operations |
| `StartupSetup.HandleBudgetChange` | src/pages/StartupSetup.tsx:73-87 | applied exactly when the other three plus the new value are at most 100, and then only that category changes; otherwise nothing changes; a total within 100 stays within 100 |
| `StartupSetup.DefaultAllocationTotal` | src/pages/StartupSetup.tsx:51-56 | the opening 25/25/25/25 allocation totals exactly 100 |
| `StartupSetup.HandleStartBusiness` | src/pages/StartupSetup.tsx:93-127 | an empty business name, city, type or product gives the incomplete-setup error; otherwise a total other than 100 gives the budget error; otherwise the game starts at day 1 with cash equal to the starting capital, 1 employee, zero stock, revenue and expenses, satisfaction 50 and morale 70 |
| `StartupSetup.InitialStartupData` | src/pages/StartupSetup.tsx:45-57 | the form opens with a positive price and an allocation using exactly 100%, but with the required fields empty, so it cannot start yet |
| `StartupSetup.DefaultAllocationStarts` | src/pages/StartupSetup.tsx:45-57 | with the opening allocation, filling the four fields is enough to start |
| `Dashboard.DrawsFromRandom` | src/pages/Dashboard.tsx:84-122 | random values in [0, 1) give a base revenue in [5000, 14999] and an event index in 0..3; the event fires exactly when the second value is below 0.1 |
| `Dashboard.Clamp` | src/pages/Dashboard.tsx:123-124 | `max(0, min(100, x))` lies in [0, 100], is x inside it, and the nearer end outside it |
| `Dashboard.DailyExpenses` | src/pages/Dashboard.tsx:89 | a day costs at least the 5000 overhead, plus a whole number of 2000 wages |
| `Dashboard.DailyRevenue` | src/pages/Dashboard.tsx:84-86 | the day's sales are base × satisfaction / 100 rounded down |
| `Dashboard.DailyRevenueBounds` | src/pages/Dashboard.tsx:84-86 | with any non-negative satisfaction sales are non-negative; up to 100 they are at most the base revenue; they are 0 at satisfaction 0 and the full base at 100 |
| `Dashboard.DailyRevenueMonotone` | src/pages/Dashboard.tsx:84-86 | a larger base revenue never gives lower sales |
| `Dashboard.SimulateDay` | src/pages/Dashboard.tsx:75-145 | day + 1; employees unchanged; expenses grow by employees × 2000 + 5000; cash moves by sales minus expenses, so the opening balance is kept; with no event, both gauges stay put and there is no notice; with an event, each gauge is clamped old + delta and the notice names the new day; the stock loses floor(sales / price) units but stops at 0, so it never goes negative and never grows when satisfaction and stock are non-negative; valid states stay valid |
| `Dashboard.ExpensesIgnoreDraws` | src/pages/Dashboard.tsx:89-94 | day, payroll and expenses after a day do not depend on the random draws |
| `Dashboard.ThreeEmployeesExpenses` | src/pages/Dashboard.tsx:89 | three employees cost exactly 11000 a day |
| `Dashboard.RevenueCeiling` | src/pages/Dashboard.tsx:84-93 | cumulative revenue grows by between 0 and floor(14999 × satisfaction / 100), and not at all at satisfaction 0 |
| `Dashboard.AllZeroDraws` | src/pages/Dashboard.tsx:84-133 | all-zero randoms draw base revenue 5000 and fire the complaint; from a fresh start the next day is fully determined |
| `Dashboard.RunDaysInvariants` | src/pages/Dashboard.tsx:75-145 | after n days: day + n, same payroll, expenses + n × the daily expenses, the same opening balance, and still within every bound |
| `Dashboard.ChangeSpeed` | src/pages/Dashboard.tsx:155-157 | the new speed is 1, 2 or 4 and always differs from the old one |
| `Dashboard.SpeedCycle` | src/pages/Dashboard.tsx:156 | three changes return to the start; 1 and 2 double |
| `Dashboard.TickInterval` | src/pages/Dashboard.tsx:67 | interval × speed = 3000 ms |
| `Dashboard.OpenDashboard` | src/pages/Dashboard.tsx:43-45 | the dashboard opens paused at speed 1 with the saved game; a priced game within every bound gives a valid session |
| `Dashboard.Simulate` | src/pages/Dashboard.tsx:75-145 | with no loaded game nothing changes; otherwise the profile, setup and timestamp are kept, and the game state becomes exactly the one-day step at the setup's product price: same payroll, expenses grow by the daily expenses, the opening balance is kept, and the game stays within every bound |
| `Dashboard.NextDay` | src/pages/Dashboard.tsx:164-168 | a manual step while playing leaves everything unchanged; while paused it is exactly one `Simulate` step; the session stays within every bound |
| `Dashboard.TimerTick` | src/pages/Dashboard.tsx:61-73 | a tick while playing is exactly one `Simulate` step and keeps the play flag and speed; paused, it changes nothing; the session stays within every bound |
| `Dashboard.TogglePlayPause` | src/pages/Dashboard.tsx:147-153 | play/pause flips the playing flag and touches nothing else |
| `Dashboard.ChangeSessionSpeed` | src/pages/Dashboard.tsx:155-162 | a speed change moves only the speed, along 1 → 2 → 4 → 1, and any other speed goes back to 1 |
| `Dashboard.StartedGameOpens` | src/pages/StartupSetup.tsx:113-127 | a game the setup screen starts, with a positive price, opens as a valid dashboard session |
| `Dashboard.PauseStopsTicks` | src/pages/Dashboard.tsx:61-73 | after pausing, timer ticks change nothing and a manual step goes through; while playing, a manual step is ignored |

## Left out

- Rendering, icons, tooltips and display formatting are not modelled. This includes the lakh badges, `toFixed` and the profit margin. They are presentation only and use floating point.
- `localStorage`, `JSON.parse`/`stringify`, `navigate` and src/pages/Index.tsx are not modelled. They are I/O and routing with no logic. The "no saved game" redirect appears only as an absent `gameData`.
- The toast channel is left out except in `SimulateDay`, whose `Notice` is the event toast. `Simulate` and the controls drop their notices.
- `setInterval` registration and cancellation are left out, because they are timer and effect semantics. `TimerTick` models one firing of the interval, which exists only while playing with a loaded game. `TickInterval` keeps the `3000 / speed` value.
- Dashboard.DailyRevenue: computes the exact floor of base × satisfaction / 100. The source multiplies by the double `satisfaction / 100`, and for some values that product falls just below a whole number. The source can then give one less, for example base 5700 and satisfaction 29, where 0.29 is not exact.
- Dashboard.DrawsFromRandom: uses real arithmetic for `Math.random() * 10000` and `< 0.1` rather than IEEE doubles.
- CreateCEO.FinalCapital: computes base × 6 / 5 in place of `Math.floor(base * 1.2)`. The two agree on every base in the table, since each is a whole number of lakh. No claim is made for other bases.
- Text.ParseInt: handles only strings that start with their digits. Leading whitespace, signs and `0x` prefixes are not modelled, because the capital table never produces them.
- Dashboard.SimulateDay: requires `productPrice > 0`, because the source divides by it unchecked. The price slider's 10–1000 range in steps of 10 is not modelled.
- StartupSetup.HandleBudgetChange: accepts any slider value. The slider's 5–70 range in steps of 5 is not modelled. Categories are a datatype instead of the string keys the sliders pass.
- The cities and business-types tables (rent, demand, tax, cost) feed only the display and are left out.
- The `if (!prevData) return null` branch of `simulateGameDay` is folded into the "no loaded game" case of `Simulate`.

=== FILE: ceo.dfy ===
/** The CEO profile screen: required-field check and the starting capital
    derived from the chosen industry and personality. */
module CreateCEO {
  import opened Outcomes
  import opened Text

  /** What the form holds when "Create CEO" is pressed; an unselected
      choice is the empty string. */
  datatype ProfileForm = ProfileForm(name: string, personality: string, industry: string, experience: string)

  /** The stored profile: the form plus the derived capital and a timestamp. */
  datatype CEOProfile = CEOProfile(
    name: string,
    personality: string,
    industry: string,
    experience: string,
    startingCapital: int,
    createdAt: string)

  datatype ProfileError = IncompleteProfile

  /** One row of the industry table; `capital` is written in lakh, e.g. "₹10L". */
  datatype Industry = Industry(value: string, name: string, capital: string, demand: string)

  const Industries: seq<Industry> := [
    Industry("technology", "Technology", "₹10L", "High"),
    Industry("fashion", "Fashion & Retail", "₹7L", "Medium"),
    Industry("food", "Food & Beverage", "₹5L", "High"),
    Industry("consulting", "Consulting Services", "₹8L", "Medium"),
    Industry("manufacturing", "Manufacturing", "₹12L", "Medium")
  ]

  const Lakh := 100000
  /** Capital used when the industry is not in the table. */
  const DefaultCapital := 500000
  const FinanceWizard := "finance-wizard"

  /** Position of `table.find(i => i.value === value)`: the first row with that value. */
  function Find(table: seq<Industry>, value: string): (r: Option<nat>)
    ensures r.Some? ==> r.value < |table| && table[r.value].value == value
    ensures r.Some? ==> forall i :: 0 <= i < r.value ==> table[i].value != value
    ensures r.None? <==> forall i :: 0 <= i < |table| ==> table[i].value != value
  {
    if |table| == 0 then None
    else if table[0].value == value then Some(0)
    else match Find(table[1..], value)
      case None => None
      case Some(k) => Some(k + 1)
  }

  /** `parseInt(capital.replace('₹', '').replace('L', ''))`: the number of lakh. */
  function ParseLakh(capital: string): (lakhs: Option<nat>)
    ensures '₹' !in capital && 'L' !in capital ==> lakhs == ParseInt(capital)
  {
    ParseInt(RemoveFirst(RemoveFirst(capital, '₹'), 'L'))
  }

  /** Any label of the form "₹<n>L" parses back to n. */
  lemma LakhLabel(n: nat)
    ensures ParseLakh(['₹'] + Show(n) + ['L']) == Some(n)
  {
    var digits := Show(n);
    RemoveFirstSplit([], '₹', digits + ['L']);
    assert [] + ['₹'] + (digits + ['L']) == ['₹'] + digits + ['L'];
    assert [] + (digits + ['L']) == digits + ['L'];
    assert 'L' !in digits;
    RemoveFirstSplit(digits, 'L', []);
    assert digits + ['L'] + [] == digits + ['L'];
    assert digits + [] == digits;
    ParseShow(n, []);
  }

  lemma ShowTwoDigits()
    ensures Show(10) == "10" && Show(12) == "12"
  {
    assert Show(1) == "1" && Show(0) == "0" && Show(2) == "2";
  }

  lemma TechnologyCapital() ensures ParseLakh("₹10L") == Some(10) {
    ShowTwoDigits();
    LakhLabel(10);
    assert ['₹'] + Show(10) + ['L'] == "₹10L";
  }

  lemma FashionCapital() ensures ParseLakh("₹7L") == Some(7) {
    LakhLabel(7);
    assert ['₹'] + Show(7) + ['L'] == "₹7L";
  }

  lemma FoodCapital() ensures ParseLakh("₹5L") == Some(5) {
    LakhLabel(5);
    assert ['₹'] + Show(5) + ['L'] == "₹5L";
  }

  lemma ConsultingCapital() ensures ParseLakh("₹8L") == Some(8) {
    LakhLabel(8);
    assert ['₹'] + Show(8) + ['L'] == "₹8L";
  }

  lemma ManufacturingCapital() ensures ParseLakh("₹12L") == Some(12) {
    ShowTwoDigits();
    LakhLabel(12);
    assert ['₹'] + Show(12) + ['L'] == "₹12L";
  }

  /** Every capital label of the table parses, to the lakh figure it shows. */
  lemma IndustryCapital(i: nat)
    requires i < |Industries|
    ensures ParseLakh(Industries[i].capital) == Some([10, 7, 5, 8, 12][i])
  {
    if i == 0 {
      TechnologyCapital();
    } else if i == 1 {
      FashionCapital();
    } else if i == 2 {
      FoodCapital();
    } else if i == 3 {
      ConsultingCapital();
    } else {
      ManufacturingCapital();
    }
  }

  /** Capital before the personality bonus. */
  function BaseCapital(industry: string): (c: int)
    ensures c >= DefaultCapital && c % Lakh == 0
    ensures Find(Industries, industry).None? ==> c == DefaultCapital
  {
    match Find(Industries, industry)
    case None => DefaultCapital
    case Some(i) =>
      IndustryCapital(i);
      var lakhs := ParseLakh(Industries[i].capital).value;
      assert lakhs >= 5;
      WholeLakh(lakhs);
      lakhs * Lakh
  }

  lemma WholeLakh(n: nat)
    ensures (n * Lakh) % Lakh == 0
  {
  }

  lemma TechnologyBase()
    ensures BaseCapital("technology") == 1000000
  {
    assert Find(Industries, "technology") == Some(0);
    IndustryCapital(0);
  }

  lemma FashionBase()
    ensures BaseCapital("fashion") == 700000
  {
  }

  lemma FoodBase()
    ensures BaseCapital("food") == 500000
  {
  }

  lemma ConsultingBase()
    ensures BaseCapital("consulting") == 800000
  {
  }

  lemma ManufacturingBase()
    ensures BaseCapital("manufacturing") == 1200000
  {
    assert Find(Industries, "manufacturing") == Some(4);
    IndustryCapital(4);
  }

  /** The base capital of each listed industry: its table label in rupees. */
  lemma BaseCapitalTable()
    ensures BaseCapital("technology") == 1000000
    ensures BaseCapital("fashion") == 700000
    ensures BaseCapital("food") == 500000
    ensures BaseCapital("consulting") == 800000
    ensures BaseCapital("manufacturing") == 1200000
  {
    TechnologyBase();
    FashionBase();
    FoodBase();
    ConsultingBase();
    ManufacturingBase();
  }

  /** Any industry outside the table falls back to the default capital. */
  lemma UnknownIndustry(industry: string)
    requires industry !in {"technology", "fashion", "food", "consulting", "manufacturing"}
    ensures BaseCapital(industry) == DefaultCapital
  {
  }

  /** `Math.floor(base * 1.2)` for a finance wizard, `base` for anyone else.
      The bases are whole lakh, so the product is exact. */
  function FinalCapital(personality: string, base: int): (c: int)
    requires base >= 0
    ensures c >= base
    ensures personality == FinanceWizard ==> 5 * c <= 6 * base < 5 * c + 5
    ensures personality != FinanceWizard ==> c == base
  {
    if personality == FinanceWizard then base * 6 / 5 else base
  }

  /** `handleCreateCEO`: rejects a form missing name, personality or industry,
      otherwise builds the profile with its starting capital. */
  function HandleCreateCEO(form: ProfileForm, createdAt: string): (r: Result<CEOProfile, ProfileError>)
    ensures r.Failure? <==> form.name == "" || form.personality == "" || form.industry == ""
    ensures r.Success? ==>
              && r.value.name == form.name
              && r.value.personality == form.personality
              && r.value.industry == form.industry
              && r.value.experience == form.experience
              && r.value.createdAt == createdAt
              && r.value.startingCapital >= BaseCapital(form.industry) >= DefaultCapital
    ensures r.Success? && form.personality != FinanceWizard ==> r.value.startingCapital == BaseCapital(form.industry)
  {
    if form.name == "" || form.personality == "" || form.industry == "" then
      Failure(IncompleteProfile)
    else
      var capital := FinalCapital(form.personality, BaseCapital(form.industry));
      Success(CEOProfile(form.name, form.personality, form.industry, form.experience, capital, createdAt))
  }

  /** The experience level has no bearing on the capital. */
  lemma ExperienceIrrelevant(form: ProfileForm, experience: string, createdAt: string)
    requires HandleCreateCEO(form, createdAt).Success?
    ensures HandleCreateCEO(form.(experience := experience), createdAt).Success?
    ensures HandleCreateCEO(form.(experience := experience), createdAt).value.startingCapital
            == HandleCreateCEO(form, createdAt).value.startingCapital
  {
  }

  /** A finance wizard gets a fifth more of the industry's capital; for
      technology that is 12 lakh. */
  lemma FinanceWizardBonus(form: ProfileForm, createdAt: string)
    requires form.name != "" && form.personality == FinanceWizard && form.industry != ""
    ensures HandleCreateCEO(form, createdAt).value.startingCapital == BaseCapital(form.industry) * 6 / 5
    ensures form.industry == "technology" ==> HandleCreateCEO(form, createdAt).value.startingCapital == 1200000
  {
    BaseCapitalTable();
  }
}

=== FILE: dashboard.dfy ===
/** The dashboard: one simulated business day, the random events that can
    strike it, and the play/pause/speed controls that decide when a day runs. */
module Dashboard {
  import opened Outcomes
  import opened Game
  import opened StartupSetup
  import opened CreateCEO

  // ---------------------------------------------------------------- draws

  const MinBaseRevenue := 5000
  const BaseRevenueSpan := 10000
  /** Probability of a random event on a given day. */
  const EventChance: real := 0.1

  /** An event changes the two gauges by fixed amounts and is announced. */
  datatype Event = Event(message: string, satisfaction: int, morale: int)

  const Events: seq<Event> := [
    Event("Customer complained about product quality!", -5, 0),
    Event("Great customer review received!", 8, 3),
    Event("Employee training program completed!", 2, 10),
    Event("Competitor launched similar product", -3, -2)
  ]

  /** The random choices of one day, made explicit. */
  datatype Draws = Draws(baseRevenue: int, eventFires: bool, eventIndex: int)

  predicate ValidDraws(d: Draws) {
    && MinBaseRevenue <= d.baseRevenue < MinBaseRevenue + BaseRevenueSpan
    && 0 <= d.eventIndex < |Events|
  }

  /** The draws made from three `Math.random()` values, each in [0, 1):
      `floor(u * 10000) + 5000`, `u < 0.1` and `floor(u * events.length)`. */
  function DrawsFromRandom(u1: real, u2: real, u3: real): (d: Draws)
    requires 0.0 <= u1 < 1.0 && 0.0 <= u2 < 1.0 && 0.0 <= u3 < 1.0
    ensures ValidDraws(d)
    ensures d.baseRevenue == MinBaseRevenue <==> u1 < 1.0 / (BaseRevenueSpan as real)
    ensures d.eventFires <==> u2 < EventChance
  {
    Draws((u1 * BaseRevenueSpan as real).Floor + MinBaseRevenue, u2 < EventChance, (u3 * |Events| as real).Floor)
  }

  // ------------------------------------------------------------- one day

  const EmployeeCost := 2000
  const Overhead := 5000

  /** `Math.max(lo, Math.min(hi, x))` */
  function Clamp(x: int, lo: int, hi: int): (r: int)
    requires lo <= hi
    ensures lo <= r <= hi
    ensures lo <= x <= hi ==> r == x
    ensures x < lo ==> r == lo
    ensures x > hi ==> r == hi
  {
    if x > hi then hi else if x < lo then lo else x
  }

  /** Sales of the day: the base revenue scaled by the satisfaction
      percentage, rounded down. */
  function DailyRevenue(baseRevenue: int, satisfaction: int): (r: int)
    ensures 100 * r <= baseRevenue * satisfaction < 100 * r + 100
  {
    baseRevenue * satisfaction / 100
  }

  /** Wages for every employee plus a fixed running cost. */
  function DailyExpenses(employees: int): (cost: int)
    ensures employees >= 0 ==> cost >= Overhead
    ensures (cost - Overhead) % EmployeeCost == 0
  {
    employees * EmployeeCost + Overhead
  }

  /** A satisfied-enough customer base earns at most the base revenue, and
      nothing at all at zero satisfaction. */
  lemma DailyRevenueBounds(baseRevenue: int, satisfaction: int)
    requires baseRevenue >= 0 && satisfaction >= 0
    ensures 0 <= DailyRevenue(baseRevenue, satisfaction)
    ensures satisfaction <= 100 ==> DailyRevenue(baseRevenue, satisfaction) <= baseRevenue
    ensures satisfaction == 0 ==> DailyRevenue(baseRevenue, satisfaction) == 0
    ensures satisfaction == 100 ==> DailyRevenue(baseRevenue, satisfaction) == baseRevenue
  {
  }

  /** More base revenue never means fewer sales, so the day's sales are at
      most what the largest draw would have given. */
  lemma DailyRevenueMonotone(b1: int, b2: int, satisfaction: int)
    requires b1 <= b2 && satisfaction >= 0
    ensures DailyRevenue(b1, satisfaction) <= DailyRevenue(b2, satisfaction)
  {
  }

  /** What the toast announces: the new day and the event's message. */
  datatype Notice = Notice(day: int, message: string)

  datatype DayResult = DayResult(state: GameState, notice: Option<Notice>)

  /** `simulateGameDay` for a saved game: one day of trading, then maybe an
      event, then the stock sold is taken out of the inventory. */
  function SimulateDay(s: GameState, productPrice: int, d: Draws): (res: DayResult)
    requires productPrice > 0 && ValidDraws(d)
    ensures res.state.day == s.day + 1
    ensures res.state.employees == s.employees
    ensures res.state.expenses == s.expenses + s.employees * 2000 + 5000
    ensures res.state.revenue - s.revenue == DailyRevenue(d.baseRevenue, s.customerSatisfaction)
    ensures OpeningBalance(res.state) == OpeningBalance(s)
    ensures !d.eventFires ==>
              && res.state.customerSatisfaction == s.customerSatisfaction
              && res.state.employeeMorale == s.employeeMorale
              && res.notice == None
    ensures d.eventFires ==>
              && res.state.customerSatisfaction == Clamp(s.customerSatisfaction + Events[d.eventIndex].satisfaction, 0, 100)
              && res.state.employeeMorale == Clamp(s.employeeMorale + Events[d.eventIndex].morale, 0, 100)
              && res.notice == Some(Notice(s.day + 1, Events[d.eventIndex].message))
    ensures var sold := DailyRevenue(d.baseRevenue, s.customerSatisfaction) / productPrice;
            && (s.inventory > sold ==> res.state.inventory == s.inventory - sold)
            && (s.inventory <= sold ==> res.state.inventory == 0)
    ensures res.state.inventory >= 0
    ensures s.customerSatisfaction >= 0 && s.inventory >= 0 ==> res.state.inventory <= s.inventory
    ensures Valid(s) ==> Valid(res.state)
  {
    var dailyRevenue := DailyRevenue(d.baseRevenue, s.customerSatisfaction);
    var dailyExpenses := DailyExpenses(s.employees);
    var traded := s.(day := s.day + 1,
                     revenue := s.revenue + dailyRevenue,
                     expenses := s.expenses + dailyExpenses,
                     cash := s.cash + (dailyRevenue - dailyExpenses));
    var (afterEvent, notice) :=
      if d.eventFires then
        var e := Events[d.eventIndex];
        (traded.(customerSatisfaction := Clamp(traded.customerSatisfaction + e.satisfaction, 0, 100),
                 employeeMorale := Clamp(traded.employeeMorale + e.morale, 0, 100)),
         Some(Notice(traded.day, e.message)))
      else (traded, None);
    assert s.customerSatisfaction >= 0 ==> dailyRevenue >= 0 by {
      if s.customerSatisfaction >= 0 {
        DailyRevenueBounds(d.baseRevenue, s.customerSatisfaction);
      }
    }
    var sold := dailyRevenue / productPrice;
    DayResult(afterEvent.(inventory := if afterEvent.inventory - sold > 0 then afterEvent.inventory - sold else 0), notice)
  }

  /** Only the revenue, cash, gauges and stock depend on the draws: the
      calendar, the payroll and the expenses do not. */
  lemma ExpensesIgnoreDraws(s: GameState, productPrice: int, d1: Draws, d2: Draws)
    requires productPrice > 0 && ValidDraws(d1) && ValidDraws(d2)
    ensures SimulateDay(s, productPrice, d1).state.day == SimulateDay(s, productPrice, d2).state.day
    ensures SimulateDay(s, productPrice, d1).state.employees == SimulateDay(s, productPrice, d2).state.employees
    ensures SimulateDay(s, productPrice, d1).state.expenses == SimulateDay(s, productPrice, d2).state.expenses
  {
  }

  /** Three employees cost 11000 a day, whatever the draws. */
  lemma ThreeEmployeesExpenses(s: GameState, productPrice: int, d: Draws)
    requires productPrice > 0 && ValidDraws(d) && s.employees == 3
    ensures SimulateDay(s, productPrice, d).state.expenses - s.expenses == 11000
  {
  }

  /** Sales never exceed what the best possible draw would have brought. */
  lemma RevenueCeiling(s: GameState, productPrice: int, d: Draws)
    requires productPrice > 0 && ValidDraws(d) && InPercent(s.customerSatisfaction)
    ensures 0 <= SimulateDay(s, productPrice, d).state.revenue - s.revenue
              <= DailyRevenue(MinBaseRevenue + BaseRevenueSpan - 1, s.customerSatisfaction)
    ensures s.customerSatisfaction == 0 ==> SimulateDay(s, productPrice, d).state.revenue == s.revenue
  {
    DailyRevenueBounds(d.baseRevenue, s.customerSatisfaction);
    DailyRevenueMonotone(d.baseRevenue, MinBaseRevenue + BaseRevenueSpan - 1, s.customerSatisfaction);
  }

  /** When every `Math.random()` returns 0 the lowest revenue is drawn AND
      the first event (a complaint) fires, since 0 < 0.1. From a fresh
      start that day is fully determined. */
  lemma AllZeroDraws(capital: int, productPrice: int)
    requires productPrice > 0
    ensures DrawsFromRandom(0.0, 0.0, 0.0) == Draws(5000, true, 0)
    ensures SimulateDay(Initial(capital), productPrice, Draws(5000, true, 0))
            == DayResult(GameState(2, capital - 4500, 1, 0, 2500, 7000, 45, 70),
                         Some(Notice(2, "Customer complained about product quality!")))
  {
  }

  predicate AllValid(ds: seq<Draws>) {
    forall i :: 0 <= i < |ds| ==> ValidDraws(ds[i])
  }

  /** Several days in a row, one set of draws per day. */
  function RunDays(s: GameState, productPrice: int, ds: seq<Draws>): GameState
    requires productPrice > 0 && AllValid(ds)
    decreases |ds|
  {
    if |ds| == 0 then s else RunDays(SimulateDay(s, productPrice, ds[0]).state, productPrice, ds[1..])
  }

  /** Over any number of days: the day counter moves by that number, the
      payroll and the opening balance stay put, expenses grow by the same
      amount each day, and the gauges and stock stay in range. */
  lemma {:induction false} RunDaysInvariants(s: GameState, productPrice: int, ds: seq<Draws>)
    requires productPrice > 0 && AllValid(ds)
    ensures RunDays(s, productPrice, ds).day == s.day + |ds|
    ensures RunDays(s, productPrice, ds).employees == s.employees
    ensures RunDays(s, productPrice, ds).expenses == s.expenses + |ds| * DailyExpenses(s.employees)
    ensures OpeningBalance(RunDays(s, productPrice, ds)) == OpeningBalance(s)
    ensures Valid(s) ==> Valid(RunDays(s, productPrice, ds))
    decreases |ds|
  {
    if |ds| > 0 {
      var next := SimulateDay(s, productPrice, ds[0]).state;
      assert AllValid(ds[1..]) by {
        forall i | 0 <= i < |ds[1..]| ensures ValidDraws(ds[1..][i]) {
          assert ds[1..][i] == ds[i + 1];
        }
      }
      RunDaysInvariants(next, productPrice, ds[1..]);
      assert |ds[1..]| * DailyExpenses(s.employees) + DailyExpenses(s.employees) == |ds| * DailyExpenses(s.employees);
    }
  }

  // ------------------------------------------------------------- controls

  const BaseInterval := 3000

  /** `changeSpeed`: 1 → 2 → 4 → 1; anything else also goes back to 1. */
  function ChangeSpeed(speed: int): (r: int)
    ensures r in {1, 2, 4}
    ensures r != speed
  {
    if speed == 1 then 2 else if speed == 2 then 4 else 1
  }

  /** Three speed changes bring a speed of the cycle back to itself, and each
      change before that visits a different speed. */
  lemma SpeedCycle(speed: int)
    requires speed in {1, 2, 4}
    ensures ChangeSpeed(ChangeSpeed(ChangeSpeed(speed))) == speed
    ensures ChangeSpeed(ChangeSpeed(speed)) != speed
    ensures speed != 4 ==> ChangeSpeed(speed) == 2 * speed
  {
  }

  /** Milliseconds between two simulated days at a given speed. */
  function TickInterval(speed: int): (ms: int)
    requires speed in {1, 2, 4}
    ensures ms * speed == BaseInterval
  {
    BaseInterval / speed
  }

  /** The dashboard's state: the loaded game, if any, and the controls. */
  datatype Session = Session(gameData: Option<GameRecord>, isPlaying: bool, gameSpeed: int)

  /** The dashboard opens paused at normal speed. */
  function OpenDashboard(saved: Option<GameRecord>): (sess: Session)
    requires saved.Some? ==> saved.value.startup.productPrice > 0 && Valid(saved.value.gameState)
    ensures ValidSession(sess)
    ensures sess.gameData == saved && !sess.isPlaying && sess.gameSpeed == 1
  {
    Session(saved, false, 1)
  }

  /** A priced game within every bound, shown at one of the three speeds. */
  predicate ValidSession(sess: Session) {
    && sess.gameSpeed in {1, 2, 4}
    && (sess.gameData.Some? ==> sess.gameData.value.startup.productPrice > 0)
    && (sess.gameData.Some? ==> Valid(sess.gameData.value.gameState))
  }

  /** `simulateGameDay`: does nothing without a loaded game; otherwise
      advances its state by one day and keeps the rest of the record. */
  function Simulate(sess: Session, d: Draws): (r: Session)
    requires ValidSession(sess) && ValidDraws(d)
    ensures ValidSession(r)
    ensures r.isPlaying == sess.isPlaying && r.gameSpeed == sess.gameSpeed
    ensures sess.gameData.None? ==> r == sess
    ensures sess.gameData.Some? ==>
              && r.gameData.Some?
              && r.gameData.value.ceoProfile == sess.gameData.value.ceoProfile
              && r.gameData.value.startup == sess.gameData.value.startup
              && r.gameData.value.createdAt == sess.gameData.value.createdAt
              && r.gameData.value.gameState.day == sess.gameData.value.gameState.day + 1
              && r.gameData.value.gameState.employees == sess.gameData.value.gameState.employees
              && r.gameData.value.gameState.expenses
                 == sess.gameData.value.gameState.expenses + DailyExpenses(sess.gameData.value.gameState.employees)
              && OpeningBalance(r.gameData.value.gameState) == OpeningBalance(sess.gameData.value.gameState)
              && r.gameData.value.gameState
                 == SimulateDay(sess.gameData.value.gameState, sess.gameData.value.startup.productPrice, d).state
  {
    match sess.gameData
    case None => sess
    case Some(g) =>
      var next := SimulateDay(g.gameState, g.startup.productPrice, d).state;
      sess.(gameData := Some(g.(gameState := next)))
  }

  /** `nextDay`: the manual step is ignored while the game is playing. */
  function NextDay(sess: Session, d: Draws): (r: Session)
    requires ValidSession(sess) && ValidDraws(d)
    ensures ValidSession(r)
    ensures sess.isPlaying ==> r == sess
    ensures !sess.isPlaying && sess.gameData.Some? ==>
              r.gameData.Some? && r.gameData.value.gameState.day == sess.gameData.value.gameState.day + 1
    ensures !sess.isPlaying ==> r == Simulate(sess, d)
  {
    if !sess.isPlaying then Simulate(sess, d) else sess
  }

  /** One firing of the interval timer, which is only installed while
      playing with a loaded game. */
  function TimerTick(sess: Session, d: Draws): (r: Session)
    requires ValidSession(sess) && ValidDraws(d)
    ensures ValidSession(r)
    ensures !sess.isPlaying ==> r == sess
    ensures sess.isPlaying && sess.gameData.Some? ==>
              r.gameData.Some? && r.gameData.value.gameState.day == sess.gameData.value.gameState.day + 1
    ensures sess.isPlaying ==> r == Simulate(sess, d)
    ensures r.isPlaying == sess.isPlaying && r.gameSpeed == sess.gameSpeed
  {
    if sess.isPlaying && sess.gameData.Some? then Simulate(sess, d) else sess
  }

  /** `togglePlayPause` */
  function TogglePlayPause(sess: Session): (r: Session)
    ensures r.isPlaying != sess.isPlaying
    ensures r.gameData == sess.gameData && r.gameSpeed == sess.gameSpeed
  {
    sess.(isPlaying := !sess.isPlaying)
  }

  /** `changeSpeed` on the dashboard: only the speed moves. */
  function ChangeSessionSpeed(sess: Session): (r: Session)
    ensures r.gameSpeed in {1, 2, 4} && r.gameSpeed != sess.gameSpeed
    ensures sess.gameSpeed in {1, 2} ==> r.gameSpeed == 2 * sess.gameSpeed
    ensures sess.gameSpeed !in {1, 2} ==> r.gameSpeed == 1
    ensures r.gameData == sess.gameData && r.isPlaying == sess.isPlaying
  {
    sess.(gameSpeed := ChangeSpeed(sess.gameSpeed))
  }

  /** Once paused, no timer tick changes the game, and a manual step is
      accepted again; playing, it is the other way round. */
  lemma PauseStopsTicks(sess: Session, d: Draws)
    requires ValidSession(sess) && ValidDraws(d) && sess.isPlaying
    ensures TimerTick(TogglePlayPause(sess), d) == TogglePlayPause(sess)
    ensures NextDay(sess, d) == sess
    ensures NextDay(TogglePlayPause(sess), d) == Simulate(TogglePlayPause(sess), d)
  {
  }

  /** A game just created by the setup screen, with a priced product, opens
      on the dashboard paused, at normal speed and within every bound. */
  lemma StartedGameOpens(profile: CEOProfile, data: StartupData, createdAt: string)
    requires HandleStartBusiness(profile, data, createdAt).Success? && data.productPrice > 0
    ensures ValidSession(OpenDashboard(Some(HandleStartBusiness(profile, data, createdAt).value)))
  {
  }
}

=== FILE: game.dfy ===
/** The simulated company's day-to-day figures, shared by the setup screen
    that creates them and the dashboard that advances them. */
module Game {

  datatype GameState = GameState(
    day: int,
    cash: int,
    employees: int,
    inventory: int,
    revenue: int,               // cumulative
    expenses: int,              // cumulative
    customerSatisfaction: int,  // percentage gauge
    employeeMorale: int)        // percentage gauge

  predicate InPercent(x: int) {
    0 <= x <= 100
  }

  /** What every state reachable from a fresh start satisfies. */
  predicate Valid(s: GameState) {
    && s.day >= 1
    && s.employees >= 0
    && s.inventory >= 0
    && s.revenue >= 0
    && s.expenses >= 0
    && InPercent(s.customerSatisfaction)
    && InPercent(s.employeeMorale)
  }

  /** The money the company had before trading: cash with all earnings
      taken out and all spending put back. Each day keeps it fixed. */
  function OpeningBalance(s: GameState): int {
    s.cash - (s.revenue - s.expenses)
  }

  const InitialEmployees := 1
  const InitialSatisfaction := 50
  const InitialMorale := 70

  /** Day one of a new company holding `capital` in cash. */
  function Initial(capital: int): (s: GameState)
    ensures Valid(s)
    ensures OpeningBalance(s) == capital
  {
    GameState(1, capital, InitialEmployees, 0, 0, 0, InitialSatisfaction, InitialMorale)
  }
}

=== FILE: outcomes.dfy ===
/** Failure-carrying results shared by the three screens of the game. */
module Outcomes {

  /** A value that may be absent: the JavaScript `undefined`/`null` of a lookup. */
  datatype Option<+T> = None | Some(value: T)

  /** The outcome of a form handler: either the record it builds or the
      validation error it reports through a toast instead. */
  datatype Result<+R, +E> = Success(value: R) | Failure(error: E)
}

=== FILE: startup.dfy ===
/** The startup setup screen: the budget allocation sliders and the
    "start business" gate that creates the saved game. */
module StartupSetup {
  import opened Outcomes
  import opened CreateCEO
  import opened Game

  datatype Category = Research | HumanResources | Marketing | Operations

  /** Percentages of the starting capital given to each business function. */
  datatype Allocation = Allocation(research: int, hr: int, marketing: int, operations: int)

  function Get(a: Allocation, c: Category): int {
    match c
    case Research => a.research
    case HumanResources => a.hr
    case Marketing => a.marketing
    case Operations => a.operations
  }

  /** `{ ...allocation, [category]: value }` */
  function With(a: Allocation, c: Category, value: int): (r: Allocation)
    ensures Get(r, c) == value
    ensures forall d :: d != c ==> Get(r, d) == Get(a, d)
  {
    match c
    case Research => a.(research := value)
    case HumanResources => a.(hr := value)
    case Marketing => a.(marketing := value)
    case Operations => a.(operations := value)
  }

  /** `Object.values(allocation)`, in declaration order. */
  function Values(a: Allocation): seq<int> {
    [a.research, a.hr, a.marketing, a.operations]
  }

  /** `values.reduce((sum, val) => sum + val, 0)`: a left fold. */
  function Sum(xs: seq<int>): int {
    if |xs| == 0 then 0 else Sum(xs[..|xs| - 1]) + xs[|xs| - 1]
  }

  /** `getTotalBudgetUsed`: the fold over the values is the plain sum of the four fields. */
  function TotalBudgetUsed(a: Allocation): (t: int)
    ensures t == a.research + a.hr + a.marketing + a.operations
  {
    var xs := Values(a);
    assert xs[..3] == [a.research, a.hr, a.marketing];
    assert Sum([a.research]) == a.research by {
      assert [a.research][..0] == [];
    }
    assert Sum([a.research, a.hr]) == a.research + a.hr by {
      assert [a.research, a.hr][..1] == [a.research];
    }
    assert Sum(xs[..3]) == a.research + a.hr + a.marketing by {
      assert xs[..3][..2] == [a.research, a.hr];
    }
    Sum(xs)
  }

  /** What the other three sliders hold, added up directly. */
  function OthersTotal(a: Allocation, c: Category): int {
    match c
    case Research => a.hr + a.marketing + a.operations
    case HumanResources => a.research + a.marketing + a.operations
    case Marketing => a.research + a.hr + a.operations
    case Operations => a.research + a.hr + a.marketing
  }

  const MaxBudget := 100

  /** `handleBudgetChange`: moving one slider is accepted only while the
      four percentages would still fit in 100; otherwise it is ignored. */
  function HandleBudgetChange(a: Allocation, c: Category, value: int): (r: Allocation)
    ensures OthersTotal(a, c) + value <= MaxBudget ==>
              Get(r, c) == value && forall d :: d != c ==> Get(r, d) == Get(a, d)
    ensures OthersTotal(a, c) + value > MaxBudget ==> r == a
    ensures TotalBudgetUsed(a) <= MaxBudget ==> TotalBudgetUsed(r) <= MaxBudget
  {
    var currentTotal := TotalBudgetUsed(a);
    var otherCategoriesTotal := currentTotal - Get(a, c);
    if otherCategoriesTotal + value <= MaxBudget then With(a, c, value) else a
  }

  /** The allocation the screen opens with. */
  const DefaultAllocation := Allocation(25, 25, 25, 25)

  lemma DefaultAllocationTotal()
    ensures TotalBudgetUsed(DefaultAllocation) == MaxBudget
  {
  }

  /** What the setup form holds; an unselected choice is the empty string. */
  datatype StartupData = StartupData(
    businessName: string,
    city: string,
    businessType: string,
    productName: string,
    productPrice: int,
    budgetAllocation: Allocation)

  /** The form as the screen opens: nothing chosen yet, a price of 100 and
      the even allocation. It uses the whole budget but cannot start yet. */
  function InitialStartupData(): (d: StartupData)
    ensures TotalBudgetUsed(d.budgetAllocation) == MaxBudget
    ensures d.productPrice > 0
    ensures !FieldsFilled(d)
  {
    StartupData("", "", "", "", 100, DefaultAllocation)
  }

  /** The saved game: profile, setup and the running figures. */
  datatype GameRecord = GameRecord(ceoProfile: CEOProfile, startup: StartupData, gameState: GameState, createdAt: string)

  datatype SetupError = IncompleteSetup | BudgetAllocationError

  predicate FieldsFilled(d: StartupData) {
    d.businessName != "" && d.city != "" && d.businessType != "" && d.productName != ""
  }

  /** `handleStartBusiness`: the required fields come first, then the budget
      must use exactly 100%; only then is the first day of the game built. */
  function HandleStartBusiness(profile: CEOProfile, data: StartupData, createdAt: string): (r: Result<GameRecord, SetupError>)
    ensures !FieldsFilled(data) ==> r == Failure(IncompleteSetup)
    ensures FieldsFilled(data) && TotalBudgetUsed(data.budgetAllocation) != MaxBudget ==> r == Failure(BudgetAllocationError)
    ensures r.Success? <==> FieldsFilled(data) && TotalBudgetUsed(data.budgetAllocation) == MaxBudget
    ensures r.Success? ==>
              var g := r.value.gameState;
              && r.value.ceoProfile == profile
              && r.value.startup == data
              && r.value.createdAt == createdAt
              && Valid(g)
              && g.day == 1 && g.cash == profile.startingCapital && g.employees == 1
              && g.inventory == 0 && g.revenue == 0 && g.expenses == 0
              && g.customerSatisfaction == 50 && g.employeeMorale == 70
  {
    if !FieldsFilled(data) then Failure(IncompleteSetup)
    else if TotalBudgetUsed(data.budgetAllocation) != MaxBudget then Failure(BudgetAllocationError)
    else Success(GameRecord(profile, data, Initial(profile.startingCapital), createdAt))
  }

  /** A game can start straight from the opening allocation once the four
      text fields are filled in. */
  lemma DefaultAllocationStarts(profile: CEOProfile, data: StartupData, createdAt: string)
    requires FieldsFilled(data) && data.budgetAllocation == DefaultAllocation
    ensures HandleStartBusiness(profile, data, createdAt).Success?
  {
  }
}

=== FILE: text.dfy ===
/** The two string built-ins the industry capital table goes through:
    `String.prototype.replace` with a one-character pattern (which removes
    only the FIRST occurrence) and `parseInt` on a run of decimal digits. */
module Text {
  import opened Outcomes

  predicate IsDigit(c: char) {
    '0' <= c <= '9'
  }

  predicate AllDigits(s: string) {
    forall i :: 0 <= i < |s| ==> IsDigit(s[i])
  }

  function DigitValue(c: char): (d: nat)
    requires IsDigit(c)
    ensures d < 10
  {
    (c as int) - ('0' as int)
  }

  function DigitChar(d: nat): (c: char)
    requires d < 10
    ensures IsDigit(c) && DigitValue(c) == d
  {
    (('0' as int) + d) as char
  }

  /** `s.replace(c, '')`: drops the first occurrence of `c`, if any. */
  function RemoveFirst(s: string, c: char): (r: string)
    ensures c !in s ==> r == s
    ensures c in s ==> |r| == |s| - 1
  {
    if |s| == 0 then s
    else if s[0] == c then s[1..]
    else [s[0]] + RemoveFirst(s[1..], c)
  }

  /** Only the first occurrence goes: everything before it and after it is kept. */
  lemma {:induction false} RemoveFirstSplit(p: string, c: char, q: string)
    requires c !in p
    ensures RemoveFirst(p + [c] + q, c) == p + q
  {
    if |p| == 0 {
      assert p + [c] + q == [c] + q;
    } else {
      assert (p + [c] + q)[1..] == p[1..] + [c] + q;
      RemoveFirstSplit(p[1..], c, q);
      assert [p[0]] + (p[1..] + q) == p + q;
    }
  }

  /** The longest prefix of `s` made of decimal digits. */
  function LeadingDigits(s: string): (ds: string)
    ensures AllDigits(ds)
    ensures ds <= s
    ensures |ds| < |s| ==> !IsDigit(s[|ds|])
  {
    if |s| == 0 || !IsDigit(s[0]) then [] else [s[0]] + LeadingDigits(s[1..])
  }

  /** Value of a digit string read most-significant digit first. */
  function DigitsValue(ds: string): nat
    requires AllDigits(ds)
  {
    if |ds| == 0 then 0
    else DigitsValue(ds[..|ds| - 1]) * 10 + DigitValue(ds[|ds| - 1])
  }

  /** `parseInt(s)` for strings that start with their digits; `None` stands
      for the `NaN` it returns when there is no leading digit. */
  function ParseInt(s: string): (r: Option<nat>)
    ensures r.None? <==> (|s| == 0 || !IsDigit(s[0]))
  {
    var ds := LeadingDigits(s);
    if |ds| == 0 then None else Some(DigitsValue(ds))
  }

  /** Decimal rendering of a natural number, without leading zeros. */
  function Show(n: nat): (s: string)
    ensures |s| > 0 && AllDigits(s)
    ensures |s| > 1 ==> s[0] != '0'
  {
    if n < 10 then [DigitChar(n)] else Show(n / 10) + [DigitChar(n % 10)]
  }

  lemma {:induction false} ShowValue(n: nat)
    ensures DigitsValue(Show(n)) == n
  {
    if n >= 10 {
      var s := Show(n);
      assert s[..|s| - 1] == Show(n / 10);
      ShowValue(n / 10);
    }
  }

  lemma {:induction false} LeadingDigitsSplit(ds: string, t: string)
    requires AllDigits(ds)
    requires |t| == 0 || !IsDigit(t[0])
    ensures LeadingDigits(ds + t) == ds
  {
    if |ds| > 0 {
      assert (ds + t)[1..] == ds[1..] + t;
      LeadingDigitsSplit(ds[1..], t);
      assert [ds[0]] + ds[1..] == ds;
    } else {
      assert ds + t == t;
    }
  }

  /** `parseInt` reads back exactly the number `Show` wrote, whatever
      non-digit text follows it. */
  lemma ParseShow(n: nat, t: string)
    requires |t| == 0 || !IsDigit(t[0])
    ensures ParseInt(Show(n) + t) == Some(n)
  {
    LeadingDigitsSplit(Show(n), t);
    ShowValue(n);
  }
}
